=== FILE: README.md ===
# emoji-remover, modelled in Dafny

This project models the two decision procedures at the core of the
`emoji-remover` command-line tool (`src/main.rs`). The tool strips temporary
comments tagged with the marker `‼️` from the files of a git working tree.

* **The line cleaner.** This is the closure that `process_file` maps over
  the lines of a file. The file's extension picks a comment rule:
  * `html` uses the block pair `<!--` … `-->`;
  * `css` uses the block pair `/*` … `*/`;
  * `jsx` and `tsx` use both `//` and the block pair `{/*` … `*/}`, and the
    earlier opener wins;
  * `rs`, `js` and `ts` use `//`;
  * every other extension, the empty one included, uses `#`.

  The first opener on the line is found. The comment is removed only when
  its span holds the two-scalar marker U+203C U+FE0F. A line comment, or a
  block with no closer on the line, runs to the end of the line; such a line
  is cut at the opener and right-trimmed. A closed block is spliced out. When
  only whitespace follows the block, the line is cut and right-trimmed
  instead. A file is rewritten, as its cleaned lines joined by `\n`, only
  when some line changed.
* **The file selector.** This is the per-entry logic of
  `list_non_ignored_files`. All patterns are compiled before the walk. Walk
  items inside `.git` are pruned. Directories, the root itself and
  git-ignored paths are skipped, and so are paths that are not valid
  Unicode. The path is normalised from `\` to `/`. Exclude patterns are
  checked before include patterns. An empty include list admits every file.
  A walk failure or a failing ignore query aborts the selection.

Files:

* `text.dfy` (module `Text`) holds the string helpers:
  * `Find`, which is `str::find`;
  * `TrimEnd` and `AllWs`, over Rust's `char::is_whitespace` table;
  * `Join` and `Split`;
  * `Normalize`.
* `cleaner.dfy` (module `Cleaner`) holds the extension-to-rule table,
  `Path::extension`, the choice of opener, `CleanLine`, `CleanFile` and
  `Rewrite`.
* `cleaner_props.dfy` (module `CleanerFacts`) states what the cleaned line
  is in each branch of the source.
* `scenarios.dfy` (module `Scenarios`) works through concrete lines.
* `selector.dfy` (module `Selector`) holds the walk, entry and error types,
  pattern compilation, the reference selection `SelectSpec` and the method
  `ListNonIgnoredFiles`, which follows the source's loop and is proved equal
  to the reference.
* `selector_props.dfy` (module `SelectorFacts`) states when selection
  fails, what it keeps and never keeps, and that it keeps walk order.

Notes on fidelity:

* **Strings.** Strings are sequences of Unicode scalar values. The source
  finds and slices by UTF-8 byte offset. Every token it searches for is
  ASCII or a whole scalar, so a character index here stands for exactly the
  byte offset the source uses.
* **The closer search overlaps the opener.** The search for the closer
  starts at the opener's own index (line 80). So in CSS, `/*/` counts as a
  closed comment whose span is those three characters. The model keeps this
  (`CleanerFacts.OverlappingCloserKeepsLine`).
* **Cleaning is not idempotent.** Only the comment of the line's first
  opener is examined per pass. It is removed when its span holds the marker.
  So a line with two marked blocks changes again on a second pass
  (`Scenarios.NotIdempotent`). A marked comment that follows an unmarked one
  on the same line is never removed, however many passes run
  (`Scenarios.UnmarkedFirstHidesLater`). The model follows the code here, not
  the wish that cleaning twice equal cleaning once.
* **No tie between the `jsx`/`tsx` openers.** The source lets the block
  opener win when both openers start at the same index. That cannot happen,
  because `//` and `{/*` begin with different characters
  (`CleanerFacts.DualTieBreak`).
* **Library rules are parameters.** The ignore query (`ignored`), pattern
  compilation (`compile`), pattern matching (`matches`) and the platform
  path separator (`sep`) are parameters of the selector. So is the walk:
  the unfiltered traversal, in order, including the items that
  `filter_entry` hides. `Selector.Pruned` marks those hidden items, and the
  selection skips them.

## Model

| member | source | states |
|---|---|---|
| `Text.FindFrom` | src/main.rs:51-57 | the search behind `str::find`: the result is the leftmost occurrence at or after the start index; None means there is no occurrence from there on |
| `Text.FindInSuffix` | src/main.rs:80 | searching the slice that starts at the opener, as `line[start..].find(ender)` does, finds a closer exactly when one occurs at or after the opener's index, and the offset it returns plus that index is the leftmost such occurrence |
| `Text.Contains` | src/main.rs:84-110 | defines `str::contains`: the needle occurs at some index; it is the test applied to the comment span at lines 84, 100 and 110 |
| `Text.Find` | src/main.rs:51-57 | `str::find`: Some exactly when the needle occurs, and then at its first occurrence |
| `Text.IsWs` | src/main.rs:89-90 | defines `char::is_whitespace` as the Unicode White_Space set, written out: the controls U+0009 to U+000D, space, U+0085, U+00A0, U+1680, U+2000 to U+200A, U+2028, U+2029, U+202F, U+205F and U+3000 |
| `Text.AllWs` | src/main.rs:89 | defines `suffix.trim().is_empty()`: every character of the suffix is whitespace |
| `Text.TrimEnd` | src/main.rs:90 | `trim_end`: the result is a prefix of its input, whitespace is all it drops, and it does not end in whitespace |
| `Text.TrimEndUnique` | src/main.rs:102 | those three properties determine the trimmed string |
| `Text.Join` | src/main.rs:124 | defines `join("\n")`: the pieces in order with one separator between neighbours, and the empty string for no pieces |
| `Text.Split` | src/main.rs:124 | splitting at every separator always gives at least one piece; it is the inverse that `SplitJoin` pairs with `Join` |
| `Text.SplitJoin` | src/main.rs:124 | joining newline-free lines with `\n` and splitting again gives the lines back, so the joined content holds exactly the cleaned lines |
| `Text.Normalize` | src/main.rs:175 | `replace('\\', "/")`: same length, every backslash becomes a slash and every other character is kept in place |
| `Text.NormalizeNoBackslash` | src/main.rs:175 | no backslash is left after `replace('\\', "/")` |
| `Text.NormalizeJoin` | src/main.rs:175 | normalising a `\`-joined path is joining the normalised components with `/` |
| `Cleaner.RuleFor` | src/main.rs:51-75 | every token of every extension's comment rule is non-empty |
| `Cleaner.Extension` | src/main.rs:45 | the extension holds no dot, is a suffix of the file name, and when non-empty is preceded by a dot and a non-empty stem |
| `Cleaner.ExtensionOfStem` | src/main.rs:45 | a non-empty stem, a dot and a dot-free extension give back that extension |
| `Cleaner.ExtensionNoDot` | src/main.rs:45 | a name without a dot has the empty extension, so the `#` rule applies |
| `Cleaner.Locate` | src/main.rs:51-75 | the chosen opener is the first occurrence of the rule's opener, or nothing when it is absent; for `jsx`/`tsx` `//` is chosen when no `{/*` starts at or before it, and `{/*` with closer `*/}` is chosen when no `//` starts before it |
| `Cleaner.CutToEnd` | src/main.rs:97-115 | cutting at the opener reports a change exactly when the line changed, and only when the line held the marker |
| `Cleaner.Apply` | src/main.rs:77-119 | once the opening is located, the flag is raised exactly when the line changed; a changed line is strictly shorter, held the marker, and keeps only characters of the input |
| `Cleaner.CleanLine` | src/main.rs:77-119 | the line's flag is raised exactly when the line changed; a changed line is strictly shorter, held the marker, and keeps only characters of the input |
| `Cleaner.MapLines` | src/main.rs:47-50 | mapping a per-line closure over the lines gives one result per line, in order, and the shared `modified` flag ends up raised exactly when the closure reported a change for some line |
| `Cleaner.CleanFile` | src/main.rs:47-121 | one output line per input line, each the cleaned input line and no longer than it; `modified` holds exactly when some line differs |
| `Cleaner.ProcessFile` | src/main.rs:45-124 | a file is cleaned under the rule of its own name's extension; content is produced exactly when some line changes under that rule, and splits back into the cleaned lines; a name without a dot is cleaned under the `#` rule |
| `Cleaner.Rewrite` | src/main.rs:123-124 | content is produced exactly when some line changed; splitting it on `\n` gives back the cleaned lines |
| `CleanerFacts.NoOpenerUnchanged` | src/main.rs:117-119 | a line with none of its rule's openers is returned unchanged and unflagged |
| `CleanerFacts.LineRuleOpening` | src/main.rs:71-75 | under `//` or `#`, the first occurrence of the token starts the comment |
| `CleanerFacts.BlockRuleOpening` | src/main.rs:51-54 | under `html`/`css`, the first occurrence of the opener starts a block with that rule's closer |
| `CleanerFacts.DualTieBreak` | src/main.rs:55-70 | the first `//` and the first `{/*` never start at the same index; the earlier one decides between a line comment and a `*/}`-closed block |
| `CleanerFacts.DualLineLikeSlash` | src/main.rs:58-67 | when `//` comes first, a `jsx`/`tsx` line is cleaned exactly as an `rs` line |
| `CleanerFacts.CutToEndCase` | src/main.rs:97-115 | for a line comment or an unclosed block, a marker after the opener gives the right-trimmed prefix before it, a strict prefix of the line; no marker leaves the line unchanged |
| `CleanerFacts.ClosedBlockCase` | src/main.rs:78-96 | the span ends after the first closer found from the opener's own index; a marked span is spliced out, or the trimmed prefix alone remains when only whitespace follows; an unmarked span leaves the line unchanged |
| `CleanerFacts.ClosedBlockTrimmed` | src/main.rs:84-90 | a marked, closed block followed only by whitespace leaves the right-trimmed text before the opener |
| `CleanerFacts.ClosedBlockSpliced` | src/main.rs:84-92 | a marked, closed block followed by other text is cut out, and the text before and after it is joined |
| `CleanerFacts.ClosedBlockKept` | src/main.rs:80-96 | a closed block whose span lacks the marker leaves the line unchanged and unflagged |
| `CleanerFacts.OverlappingCloserKeepsLine` | src/main.rs:80-82 | in CSS, any line whose first `/*` is directly followed by `/` is kept unchanged and unflagged, whatever precedes or follows: the closer search from the opener's index finds the opener's own star, and the span `/*/` holds no marker |
| `Scenarios.MarkedHtmlComment` | src/main.rs:51-93 | an HTML line `a ‼️ b`, where `a` has `<!--` at index `s`, no `!` at indices 1 to `s`, and no `>` from index `s` on, and where `b` has `-->` at index `q` and no `>` before index `q + 2`, loses that comment: it is spliced out, or the line is cut and trimmed when only whitespace follows it (`ClosedBlockCase` and `BlockRuleOpening` state the general case) |
| `Scenarios.HashCommentKept` | src/main.rs:108-115 | `x = 1  # keep this` stays as it is |
| `Scenarios.HashCommentCut` | src/main.rs:108-112 | `x = 1  # ‼️ remove` becomes `x = 1` |
| `Scenarios.MarkupSpliced` | src/main.rs:84-92 | `<div>  <!-- ‼️ drop --> </div>` becomes `<div>   </div>` |
| `Scenarios.MarkupWholeLine` | src/main.rs:88-90 | ` <!-- ‼️ only this --> ` becomes the empty line |
| `Scenarios.DualSlashFirst` | src/main.rs:58-62 | in `tsx`, `x // {/* ‼️ */} tail` is a line comment and becomes `x` |
| `Scenarios.DualBlockSpliced` | src/main.rs:58-92 | in `tsx`, `<div>{/* ‼️ */}</div>` has no `//`, so its `{/*` block closed by `*/}` is spliced out, giving `<div></div>` |
| `Scenarios.UnmarkedFirstHidesLater` | src/main.rs:80-95 | `<!-- a --> <!-- ‼️ -->` is kept unchanged and unflagged: the first opener's span `<!-- a -->` holds no marker, so the marked comment after it is never looked at |
| `Scenarios.UnterminatedBlock` | src/main.rs:97-102 | `a { color: red; } /* ‼️ oops`, whose block is never closed, becomes `a { color: red; }` |
| `Scenarios.CssOverlappingCloser` | src/main.rs:80-82 | `a /*/ ‼️` is kept, because the span `/*/` holds no marker |
| `Scenarios.FirstPassKeepsSecondComment` | src/main.rs:80-92 | `<div> <!-- ‼️ --> <!-- ‼️ --> </div>` becomes `<div>  <!-- ‼️ --> </div>`: only the first comment goes |
| `Scenarios.SecondPassRemovesIt` | src/main.rs:80-92 | `<div>  <!-- ‼️ --> </div>` becomes `<div>   </div>` |
| `Scenarios.NotIdempotent` | src/main.rs:80-93 | cleaning `<div> <!-- ‼️ --> <!-- ‼️ --> </div>` once gives `<div>  <!-- ‼️ --> </div>`, flagged, and cleaning that again gives `<div>   </div>`, flagged again |
| `Selector.IsGitDir` | src/main.rs:139-141 | defines `is_git_dir`: the entry's own name is valid Unicode and is exactly `.git`; a name that is not valid Unicode never is |
| `Selector.Pruned` | src/main.rs:156-158 | defines what the `filter_entry` that rejects `is_git_dir` entries hides: every entry with a `.git` component, the directory itself included, and every failure strictly below one |
| `Selector.MatchKey` | src/main.rs:174-175 | the key that patterns see holds no backslash |
| `Selector.CompileAll` | src/main.rs:149-154 | compilation succeeds exactly when every pattern compiles, giving one compiled pattern per source; otherwise it fails with InvalidGlob on the first bad pattern |
| `Selector.MatchesAny` | src/main.rs:178-184 | the scan with early exit reports a match exactly when some pattern matches |
| `Selector.SelectSpec` | src/main.rs:159-201 | the reference selection: the first unpruned walk failure or failing ignore query aborts with its error; otherwise the unpruned surviving entries that no exclude matches and the includes admit, in walk order |
| `Selector.ListSpec` | src/main.rs:148-203 | the reference for the whole operation: include patterns compiled, then exclude patterns, the first bad one failing with InvalidGlob, then the reference selection over the walk |
| `Selector.ListNonIgnoredFiles` | src/main.rs:143-203 | the source's loop (compile, then walk with its skips, early returns and two pattern scans) computes exactly the reference selection |
| `SelectorFacts.SelectOutcome` | src/main.rs:159-173 | selection fails exactly when some yielded item is a walk failure or a failed ignore query, and then with the first one's error |
| `SelectorFacts.SelectSound` | src/main.rs:159-201 | every selected entry was yielded, not pruned, a file, not the root, not ignored, valid Unicode, matched by no exclude and admitted by the includes |
| `SelectorFacts.SelectComplete` | src/main.rs:188-201 | every yielded, unpruned entry that passes all checks is selected |
| `SelectorFacts.SelectInWalkOrder` | src/main.rs:159-199 | the selection is a subsequence of the walk, in traversal order |
| `SelectorFacts.NothingUnwanted` | src/main.rs:139-187 | nothing selected is a directory, the root, ignored, inside `.git` or matched by an exclude pattern, even if an include pattern matches it |
| `SelectorFacts.EmptyIncludesSelectAll` | src/main.rs:188-189 | with no include patterns the selection is exactly the surviving, non-excluded files |
| `SelectorFacts.IncludesDecide` | src/main.rs:190-200 | with include patterns, a surviving non-excluded file is selected exactly when some include pattern matches its key |
| `SelectorFacts.PatternsBeforeWalk` | src/main.rs:148-158 | a pattern that does not compile fails the operation with InvalidGlob, whatever the walk holds |
| `SelectorFacts.MatchKeyPlatformIndependent` | src/main.rs:175 | with `\` as the separator, a path's key equals its key with `/` when no component holds a separator |

## Left out

- Reading and writing files, UTF-8 decoding of content and all logging (src/main.rs:40-43, 125-127, 227-232) are I/O. `Rewrite` returns the content that would be written.
- `str::lines` is not modelled: the `\r\n` handling and a final newline are outside the model. A file is taken as its already-split lines. A trailing newline of the original is lost by `join("\n")`.
- `glob::Pattern` matching and `Pattern::new` validity are library rules. They are the `matches` and `compile` parameters, and InvalidGlob carries the pattern text instead of the library's error value.
- git's ignore rules are a library rule. They are the `ignored` parameter, and its failure message becomes `GitDiscovery`, the error the source's `?` produces.
- The walkdir traversal is given as its sequence of items. Pruning at `.git` is modelled as dropping every entry that has a `.git` component in its relative path, and every failure below such a component. A root directory itself named `.git` is not modelled.
- `Selector.Pruned`: a failure the walker reports at a `.git` path itself (for instance while reading that entry's file type) is kept and aborts the selection. A failure to read a `.git` directory's contents is also reported at that path, but walkdir drops it when the directory is filtered out, so the source never sees it. The model does not tell these two apart.
- `strip_prefix` failing (line 166) is not modelled, because every walked path lies under the root. Whether a path is a directory (`is_dir`, which follows symbolic links) is the entry's `isDir` flag.
- Selected entries carry the path relative to the root. The source returns the walker's full path, which is that relative path under the root.
- `Repository::open`, git root discovery, the bare-repository check, the command-line options and their default include list, and the exit codes of `main` are environment and interface.
- `Extension` takes the file name, the final component of the path, as a string; the directories before it are not modelled, so a `/` in `name` is read as part of the name. `ProcessFile` takes the same final component. A file name that is not valid Unicode, whose extension `to_str` rejects so that the `#` rule applies, is not modelled.
- The per-file error handling of `main`, where a failing file is reported and the run goes on, is not modelled; it is I/O.

=== FILE: cleaner.dfy ===
/** The marker-comment cleaner of `process_file` (src/main.rs).

    Each line is cleaned on its own: the file's extension picks a comment
    rule, the first opener of that rule is located, and the comment is cut
    out only when its span holds the marker `‼️` (U+203C U+FE0F). No state
    is carried from one line to the next.
 */
module Cleaner {
  import opened Text

  /** The two-scalar marker token `‼️`. */
  const Marker: string := ['\U{203C}', '\U{FE0F}']

  /** The comment syntax recognised for one extension. */
  datatype LangRule =
    | LineRule(opener: string)
    | BlockRule(opener: string, closer: string)
      /** Both a line opener and a block pair; the earlier opener wins. */
    | DualRule(lineOpener: string, blockOpener: string, blockCloser: string)

  /** Every token of the rule is non-empty. */
  predicate WellFormed(rule: LangRule) {
    match rule
    case LineRule(op) => |op| > 0
    case BlockRule(op, cl) => |op| > 0 && |cl| > 0
    case DualRule(lo, bo, bc) => |lo| > 0 && |bo| > 0 && |bc| > 0
  }

  /** The openers a line is searched for under `rule`. */
  function Openers(rule: LangRule): seq<string> {
    match rule
    case LineRule(op) => [op]
    case BlockRule(op, _) => [op]
    case DualRule(lo, bo, _) => [lo, bo]
  }

  /** The extension-to-rule table. */
  function RuleFor(ext: string): (rule: LangRule)
    ensures WellFormed(rule)
  {
    if ext == "html" then BlockRule("<!--", "-->")
    else if ext == "css" then BlockRule("/*", "*/")
    else if ext == "jsx" || ext == "tsx" then DualRule("//", "{/*", "*/}")
    else if ext == "rs" || ext == "js" || ext == "ts" then LineRule("//")
    else LineRule("#")
  }

  /** Index of the last `.` in `s`, if any. */
  function LastDot(s: string): (r: Option<nat>)
    ensures r.Some? ==> r.value < |s| && s[r.value] == '.' && '.' !in s[r.value + 1..]
    ensures r.None? ==> '.' !in s
  {
    if |s| == 0 then None
    else if s[|s| - 1] == '.' then Some(|s| - 1)
    else
      var r := LastDot(s[..|s| - 1]);
      assert s == s[..|s| - 1] + [s[|s| - 1]];
      r
  }

  /** `Path::extension` of a file name, with a missing extension read as "":
      the text after the last dot, unless there is no dot or the only
      dot-split leaves an empty stem (a name such as `.bashrc`). */
  function Extension(name: string): (ext: string)
    ensures '.' !in ext
    ensures |ext| <= |name| && ext == name[|name| - |ext|..]
    ensures ext != [] ==> |ext| + 2 <= |name| && name[|name| - |ext| - 1] == '.'
  {
    match LastDot(name)
    case None => ""
    case Some(k) => if k == 0 then "" else name[k + 1..]
  }

  /** A stem followed by a dot and a dot-free extension yields that extension. */
  lemma ExtensionOfStem(stem: string, ext: string)
    requires stem != [] && '.' !in ext
    ensures Extension(stem + "." + ext) == ext
  {
    var name := stem + "." + ext;
    var k := |stem|;
    assert name[k] == '.';
    assert name[k + 1..] == ext;
  }

  /** A name without a dot has no extension. */
  lemma ExtensionNoDot(name: string)
    requires '.' !in name
    ensures Extension(name) == ""
    ensures RuleFor(Extension(name)) == LineRule("#")
  {
  }

  /** Where the line's comment starts and, for a block, which closer ends it. */
  datatype Opening = NoComment | LineComment(start: nat) | BlockComment(start: nat, closer: string)

  /** The opener that decides the line, chosen as the source chooses it. */
  function Locate(rule: LangRule, line: string): (o: Opening)
    requires WellFormed(rule)
    ensures o.LineComment? || o.BlockComment? ==> o.start <= |line|
    ensures rule.LineRule? ==>
      || (o == NoComment && !Contains(line, rule.opener))
      || (o.LineComment? && FirstAt(line, rule.opener, o.start))
    ensures rule.BlockRule? ==>
      || (o == NoComment && !Contains(line, rule.opener))
      || (o.BlockComment? && o.closer == rule.closer && FirstAt(line, rule.opener, o.start))
    ensures rule.DualRule? ==>
      && (o == NoComment <==> !Contains(line, rule.lineOpener) && !Contains(line, rule.blockOpener))
      && (o.LineComment? ==>
            FirstAt(line, rule.lineOpener, o.start) && !OccursBefore(line, rule.blockOpener, o.start + 1))
      && (o.BlockComment? ==>
            && o.closer == rule.blockCloser
            && FirstAt(line, rule.blockOpener, o.start)
            && !OccursBefore(line, rule.lineOpener, o.start))
  {
    match rule
    case LineRule(op) =>
      (match Find(line, op)
       case None => NoComment
       case Some(s) => LineComment(s))
    case BlockRule(op, cl) =>
      (match Find(line, op)
       case None => NoComment
       case Some(s) => BlockComment(s, cl))
    case DualRule(lo, bo, bc) =>
      match (Find(line, lo), Find(line, bo))
      case (Some(s), Some(b)) => if s < b then LineComment(s) else BlockComment(b, bc)
      case (Some(s), None) => LineComment(s)
      case (None, Some(b)) => BlockComment(b, bc)
      case (None, None) => NoComment
  }

  /** A comment running to the end of the line: cut at `start` and trim
      trailing whitespace if the rest of the line holds the marker. */
  function CutToEnd(line: string, start: nat): (r: (string, bool))
    requires start <= |line|
    ensures r.1 <==> r.0 != line
    ensures r.1 ==> |r.0| < |line| && Contains(line, Marker)
  {
    if Contains(line[start..], Marker) then
      assert line[start..] == line[start..|line|];
      ContainsSlice(line, start, |line|, Marker);
      (TrimEnd(line[..start]), true)
    else (line, false)
  }

  /** The cleaning of a line once its opening is located. */
  function Apply(line: string, o: Opening): (r: (string, bool))
    requires o.LineComment? || o.BlockComment? ==> o.start <= |line|
    ensures r.1 <==> r.0 != line
    ensures !r.1 ==> r.0 == line
    ensures r.1 ==> |r.0| < |line| && Contains(line, Marker)
    ensures forall c | c in r.0 :: c in line
  {
    match o
    case NoComment => (line, false)
    case LineComment(start) => CutToEnd(line, start)
    case BlockComment(start, closer) =>
      match Find(line[start..], closer)
      case None => CutToEnd(line, start)
      case Some(off) =>
        var end := start + off + |closer|;
        if Contains(line[start..end], Marker) then
          ContainsSlice(line, start, end, Marker);
          if AllWs(line[end..]) then (TrimEnd(line[..start]), true)
          else (line[..start] + line[end..], true)
        else (line, false)
  }

  /** The per-line cleaner; the flag is the line's contribution to `modified`. */
  function CleanLine(ext: string, line: string): (r: (string, bool))
    ensures r.1 <==> r.0 != line
    ensures !r.1 ==> r.0 == line
    ensures r.1 ==> |r.0| < |line| && Contains(line, Marker)
    ensures forall c | c in r.0 :: c in line
  {
    Apply(line, Locate(RuleFor(ext), line))
  }

  /** `lines().map(clean)` together with the `modified` flag that the
      closure raises whenever it reports a change. */
  method MapLines(lines: seq<string>, clean: string -> (string, bool)) returns (cleaned: seq<string>, modified: bool)
    ensures |cleaned| == |lines|
    ensures forall i | 0 <= i < |lines| :: cleaned[i] == clean(lines[i]).0
    ensures modified <==> exists i | 0 <= i < |lines| :: clean(lines[i]).1
  {
    cleaned := [];
    modified := false;
    for k := 0 to |lines|
      invariant |cleaned| == k
      invariant forall i | 0 <= i < k :: cleaned[i] == clean(lines[i]).0
      invariant modified <==> exists i | 0 <= i < k :: clean(lines[i]).1
    {
      var (out, changed) := clean(lines[k]);
      if changed {
        modified := true;
      }
      cleaned := cleaned + [out];
    }
  }

  /** The cleaning pass over a whole file: one output line per input line,
      and `modified` raised exactly when some line changed. */
  method CleanFile(ext: string, lines: seq<string>) returns (cleaned: seq<string>, modified: bool)
    ensures |cleaned| == |lines|
    ensures forall i | 0 <= i < |lines| :: cleaned[i] == CleanLine(ext, lines[i]).0
    ensures forall i | 0 <= i < |lines| :: |cleaned[i]| <= |lines[i]|
    ensures modified <==> exists i | 0 <= i < |lines| :: cleaned[i] != lines[i]
  {
    cleaned, modified := MapLines(lines, line => CleanLine(ext, line));
  }

  /** The new file content, produced only when the file was modified: the
      cleaned lines joined with a newline. */
  method Rewrite(ext: string, lines: seq<string>) returns (output: Option<string>)
    ensures output.Some? <==> exists i | 0 <= i < |lines| :: CleanLine(ext, lines[i]).1
    ensures output.Some? && (forall i | 0 <= i < |lines| :: '\n' !in lines[i]) ==>
      && |Split(output.value, '\n')| == |lines|
      && forall i | 0 <= i < |lines| :: Split(output.value, '\n')[i] == CleanLine(ext, lines[i]).0
  {
    var cleaned, modified := CleanFile(ext, lines);
    if modified {
      if forall i | 0 <= i < |lines| :: '\n' !in lines[i] {
        SplitJoin(cleaned, '\n');
      }
      output := Some(Join(cleaned, '\n'));
    } else {
      output := None;
    }
  }

  /** `process_file` on already-read content: the file is cleaned under the
      rule of its own name's extension, and new content is produced only
      when some line changed. `name` is the final component of the file's
      path, the part `Path::extension` looks at. */
  method ProcessFile(name: string, lines: seq<string>) returns (output: Option<string>)
    ensures output.Some? <==> exists i | 0 <= i < |lines| :: CleanLine(Extension(name), lines[i]).1
    ensures output.Some? && (forall i | 0 <= i < |lines| :: '\n' !in lines[i]) ==>
      && |Split(output.value, '\n')| == |lines|
      && forall i | 0 <= i < |lines| :: Split(output.value, '\n')[i] == CleanLine(Extension(name), lines[i]).0
    ensures '.' !in name ==> (output.Some? <==> exists i | 0 <= i < |lines| :: CleanLine("#", lines[i]).1)
  {
    output := Rewrite(Extension(name), lines);
    if '.' !in name {
      ExtensionNoDot(name);
      forall i | 0 <= i < |lines|
        ensures CleanLine(Extension(name), lines[i]) == CleanLine("#", lines[i])
      {
        assert RuleFor("#") == RuleFor(Extension(name));
      }
    }
  }
}

=== FILE: cleaner_props.dfy ===
/** Properties of the line cleaner: which opener decides a line, and what
    the cleaned line is in each of the source's branches. */
module CleanerFacts {
  import opened Text
  import opened Cleaner

  /** A line holding none of its rule's openers passes through untouched. */
  lemma NoOpenerUnchanged(ext: string, line: string)
    requires forall k | 0 <= k < |Openers(RuleFor(ext))| :: !Contains(line, Openers(RuleFor(ext))[k])
    ensures CleanLine(ext, line) == (line, false)
  {
    var rule := RuleFor(ext);
    match rule {
      case LineRule(op) => assert !Contains(line, Openers(rule)[0]);
      case BlockRule(op, _) => assert !Contains(line, Openers(rule)[0]);
      case DualRule(lo, bo, _) =>
        assert !Contains(line, Openers(rule)[0]);
        assert !Contains(line, Openers(rule)[1]);
    }
  }

  /** Under a single-token rule the first occurrence of the opener decides the line. */
  lemma LineRuleOpening(ext: string, line: string, start: nat)
    requires RuleFor(ext).LineRule?
    requires FirstAt(line, RuleFor(ext).opener, start)
    ensures Locate(RuleFor(ext), line) == LineComment(start)
  {
    var o := Locate(RuleFor(ext), line);
    FirstAtUnique(line, RuleFor(ext).opener, o.start, start);
  }

  /** Under a block rule the first occurrence of the opener starts the block. */
  lemma BlockRuleOpening(ext: string, line: string, start: nat)
    requires RuleFor(ext).BlockRule?
    requires FirstAt(line, RuleFor(ext).opener, start)
    ensures Locate(RuleFor(ext), line) == BlockComment(start, RuleFor(ext).closer)
  {
    var o := Locate(RuleFor(ext), line);
    FirstAtUnique(line, RuleFor(ext).opener, o.start, start);
  }

  // For `jsx`/`tsx` the two openers never start at the same index, and the
  // earlier one decides: `//` gives a line comment, `{/*` a block ended by
  // `*/}`.
  lemma DualTieBreak(ext: string, line: string, s: nat, b: nat)
    requires ext == "jsx" || ext == "tsx"
    requires FirstAt(line, "//", s) && FirstAt(line, "{/*", b)
    ensures s != b
    ensures s < b ==> Locate(RuleFor(ext), line) == LineComment(s)
    ensures b < s ==> Locate(RuleFor(ext), line) == BlockComment(b, "*/}")
  {
    assert line[s..s + 2] == "//";
    assert line[b..b + 3] == "{/*";
    assert line[s] == '/';
    assert line[b] == '{';
    var o := Locate(RuleFor(ext), line);
    if o.LineComment? {
      FirstAtUnique(line, "//", o.start, s);
    } else if o.BlockComment? {
      FirstAtUnique(line, "{/*", o.start, b);
    }
  }

  // For `jsx`/`tsx`, a line whose first `//` precedes every `{/*` is cleaned
  // exactly as a `//`-only language (`rs`) cleans it.
  lemma DualLineLikeSlash(ext: string, line: string, s: nat)
    requires ext == "jsx" || ext == "tsx"
    requires FirstAt(line, "//", s) && !OccursBefore(line, "{/*", s + 1)
    ensures CleanLine(ext, line) == CleanLine("rs", line)
  {
    LineRuleOpening("rs", line, s);
  }

  /** A comment that runs to the end of the line (a line comment, or a block
      whose closer is missing) is cut at its opener, with trailing whitespace
      trimmed, exactly when the rest of the line holds the marker. */
  lemma CutToEndCase(ext: string, line: string, start: nat)
    requires
      || Locate(RuleFor(ext), line) == LineComment(start)
      || (Locate(RuleFor(ext), line).BlockComment?
          && Locate(RuleFor(ext), line).start == start
          && !Contains(line[start..], Locate(RuleFor(ext), line).closer))
    ensures start <= |line|
    ensures Contains(line[start..], Marker) ==>
      && CleanLine(ext, line) == (TrimEnd(line[..start]), true)
      && CleanLine(ext, line).0 <= line
      && |CleanLine(ext, line).0| <= start < |line|
    ensures !Contains(line[start..], Marker) ==> CleanLine(ext, line) == (line, false)
  {
    var o := Locate(RuleFor(ext), line);
    if o.BlockComment? {
      assert Find(line[start..], o.closer).None?;
    }
  }

  /** A block closed on the same line: the closer is searched from the
      opener's own index, the span runs to the end of the closer, and a
      marked span is spliced out, or the line is cut and trimmed when only
      whitespace follows the span. */
  lemma ClosedBlockCase(ext: string, line: string, start: nat, closer: string, off: nat)
    requires Locate(RuleFor(ext), line) == BlockComment(start, closer)
    requires FirstAt(line[start..], closer, off)
    ensures start + off + |closer| <= |line|
    ensures var end := start + off + |closer|;
      Contains(line[start..end], Marker) && AllWs(line[end..]) ==>
        CleanLine(ext, line) == (TrimEnd(line[..start]), true)
    ensures var end := start + off + |closer|;
      Contains(line[start..end], Marker) && !AllWs(line[end..]) ==>
        CleanLine(ext, line) == (line[..start] + line[end..], true)
    ensures var end := start + off + |closer|;
      !Contains(line[start..end], Marker) ==> CleanLine(ext, line) == (line, false)
  {
    var end := start + off + |closer|;
    if Contains(line[start..end], Marker) {
      if AllWs(line[end..]) {
        ClosedBlockTrimmed(line, start, closer, off);
      } else {
        ClosedBlockSpliced(line, start, closer, off);
      }
    } else {
      ClosedBlockKept(line, start, closer, off);
    }
  }

  /** The closer search of a located block finds the closer's first occurrence. */
  lemma CloserFound(line: string, start: nat, closer: string, off: nat)
    requires start <= |line|
    requires FirstAt(line[start..], closer, off)
    ensures Find(line[start..], closer) == Some(off)
  {
    var f := Find(line[start..], closer);
    FirstAtUnique(line[start..], closer, f.value, off);
  }

  /** A marked block followed only by whitespace: the line is cut and trimmed. */
  lemma ClosedBlockTrimmed(line: string, start: nat, closer: string, off: nat)
    requires start <= |line|
    requires FirstAt(line[start..], closer, off)
    requires start + off + |closer| <= |line|
    requires Contains(line[start..start + off + |closer|], Marker)
    requires AllWs(line[start + off + |closer|..])
    ensures Apply(line, BlockComment(start, closer)) == (TrimEnd(line[..start]), true)
  {
    CloserFound(line, start, closer, off);
  }

  /** A marked block followed by more text: the block is spliced out. */
  lemma ClosedBlockSpliced(line: string, start: nat, closer: string, off: nat)
    requires start <= |line|
    requires FirstAt(line[start..], closer, off)
    requires start + off + |closer| <= |line|
    requires Contains(line[start..start + off + |closer|], Marker)
    requires !AllWs(line[start + off + |closer|..])
    ensures Apply(line, BlockComment(start, closer)) == (line[..start] + line[start + off + |closer|..], true)
  {
    CloserFound(line, start, closer, off);
  }

  /** An unmarked block leaves the line as it is. */
  lemma ClosedBlockKept(line: string, start: nat, closer: string, off: nat)
    requires start <= |line|
    requires FirstAt(line[start..], closer, off)
    requires start + off + |closer| <= |line|
    requires !Contains(line[start..start + off + |closer|], Marker)
    ensures Apply(line, BlockComment(start, closer)) == (line, false)
  {
    CloserFound(line, start, closer, off);
  }

  // In CSS the closer search starts at the opener itself, so a first opener
  // directly followed by `/` is closed by its own star: the span is the three
  // characters `/*/`, which never hold the marker, and the line is kept
  // whatever precedes or follows it.
  lemma OverlappingCloserKeepsLine(line: string, n: nat)
    requires FirstAt(line, "/*", n) && n + 2 < |line| && line[n + 2] == '/'
    ensures CleanLine("css", line) == (line, false)
  {
    BlockRuleOpening("css", line, n);
    var w := line[n..];
    assert line[n..n + 2] == "/*";
    assert w[0] == line[n..n + 2][0] == '/' && w[1] == line[n..n + 2][1] == '*';
    assert w[2] == line[n + 2] == '/';
    assert w[0..1] == "/" && w[1..3] == "*/";
    FirstAtByChar(w, "*/", 1, 0);
    assert line[n..n + 3] == "/*/";
    AbsentByChar(line[n..n + 3], Marker, 0);
    ClosedBlockKept(line, n, "*/", 1);
  }
}

=== FILE: scenarios.dfy ===
/** Worked lines for the cleaner, one per documented behaviour. Each line is
    written as plain text around the marker so that its slices can be read
    off piece by piece. */
module Scenarios {
  import opened Text
  import opened Cleaner
  import opened CleanerFacts

  /** A slice that starts in `a` and ends in `b` of `a + m + b`. */
  lemma Straddle(a: string, m: string, b: string, i: int, j: int)
    requires 0 <= i <= |a| && |a| + |m| <= j <= |a| + |m| + |b|
    ensures (a + m + b)[i..j] == a[i..] + m + b[..j - |a| - |m|]
  {
  }

  /** An opener found in `a` is the first one on `a + Marker + b` when its
      `ko`-th character does not show up earlier where it would start a match. */
  lemma OpenerFirst(a: string, b: string, s: nat, op: string, ko: nat)
    requires s + |op| <= |a| && a[s..s + |op|] == op
    requires ko < |op| && op[ko] !in a[ko..s + ko]
    ensures FirstAt(a + Marker + b, op, s)
  {
    var h := a + Marker + b;
    assert h[..|a|] == a;
    assert h[s..s + |op|] == h[..|a|][s..s + |op|];
    assert h[ko..s + ko] == h[..|a|][ko..s + ko];
    FirstAtByChar(h, op, s, ko);
  }

  /** A closer found in `b` is the first one on `a + Marker + b` when its
      `kc`-th character shows up neither in `a`, nor in the marker, nor
      earlier in `b` where it would start a match. */
  lemma CloserFirst(a: string, b: string, q: nat, cl: string, kc: nat)
    requires q + |cl| <= |b| && b[q..q + |cl|] == cl
    requires kc < |cl| && cl[kc] !in a && cl[kc] !in Marker && cl[kc] !in b[..q + kc]
    ensures FirstAt(a + Marker + b, cl, |a| + 2 + q)
  {
    var h := a + Marker + b;
    var off := |a| + 2 + q;
    assert h[|a| + 2..] == b;
    assert h[off..off + |cl|] == h[|a| + 2..][q..q + |cl|];
    forall x | kc <= x < off + kc
      ensures h[x] != cl[kc]
    {
      if x < |a| {
        assert h[x] == a[x];
      } else if x < |a| + 2 {
        assert h[x] == Marker[x - |a|];
      } else {
        assert h[x] == b[x - |a| - 2] == b[..q + kc][x - |a| - 2];
      }
    }
    assert cl[kc] !in h[kc..off + kc];
    FirstAtByChar(h, cl, off, kc);
  }

  /** A span of `a + Marker + b` that covers the marker contains it. */
  lemma MarkerInside(a: string, b: string, s: nat, e: nat)
    requires s <= |a| && |a| + 2 <= e <= |a| + 2 + |b|
    ensures Contains((a + Marker + b)[s..e], Marker)
  {
    var h := a + Marker + b;
    assert h[s..e][|a| - s..|a| - s + 2] == h[|a|..|a| + 2] == Marker;
    assert OccursAt(h[s..e], Marker, |a| - s);
  }

  /** Where the comment of the HTML line `a + Marker + b` opens and closes,
      when it opens at `s` in `a` and closes at `q` in `b` with no earlier
      opener and no earlier closer. */
  lemma HtmlCommentSpan(line: string, a: string, b: string, s: nat, q: nat)
    requires line == a + Marker + b
    requires s + 4 <= |a| && a[s..s + 4] == "<!--" && '!' !in a[1..s + 1]
    requires q + 3 <= |b| && b[q..q + 3] == "-->" && '>' !in a[s..] && '>' !in b[..q + 2]
    ensures Locate(RuleFor("html"), line) == BlockComment(s, "-->")
    ensures FirstAt(line[s..], "-->", |a| - s + 2 + q)
    ensures Contains(line[s..|a| + 5 + q], Marker)
    ensures line[..s] == a[..s] && line[|a| + 5 + q..] == b[q + 3..]
  {
    HtmlOpening(line, a, b, s);
    assert line[s..] == a[s..] + Marker + b;
    CloserFirst(a[s..], b, q, "-->", 2);
    MarkerInside(a, b, s, |a| + 5 + q);
    assert line[..s] == a[..s];
    assert line[|a| + 5 + q..] == b[q + 3..];
  }

  /** The first HTML opener of `a + Marker + b`, found in `a`, opens the comment. */
  lemma HtmlOpening(line: string, a: string, b: string, s: nat)
    requires line == a + Marker + b
    requires s + 4 <= |a| && a[s..s + 4] == "<!--" && '!' !in a[1..s + 1]
    ensures Locate(RuleFor("html"), line) == BlockComment(s, "-->")
  {
    OpenerFirst(a, b, s, "<!--", 1);
    BlockRuleOpening("html", line, s);
  }

  /** The cleaned form of such a line: the comment is spliced out, or the
      line is cut and trimmed when only whitespace follows the comment. */
  lemma MarkedHtmlComment(line: string, a: string, b: string, s: nat, q: nat)
    requires line == a + Marker + b
    requires s + 4 <= |a| && a[s..s + 4] == "<!--" && '!' !in a[1..s + 1]
    requires q + 3 <= |b| && b[q..q + 3] == "-->" && '>' !in a[s..] && '>' !in b[..q + 2]
    ensures AllWs(b[q + 3..]) ==> CleanLine("html", line) == (TrimEnd(a[..s]), true)
    ensures !AllWs(b[q + 3..]) ==> CleanLine("html", line) == (a[..s] + b[q + 3..], true)
  {
    var off := |a| - s + 2 + q;
    HtmlCommentSpan(line, a, b, s, q);
    assert s + off + 3 == |a| + 5 + q;
    if AllWs(b[q + 3..]) {
      ClosedBlockTrimmed(line, s, "-->", off);
    } else {
      ClosedBlockSpliced(line, s, "-->", off);
    }
  }

  /** A `#` comment without the marker is kept. */
  lemma HashCommentKept()
    ensures var line := "x = 1  " + "# keep this"; CleanLine("py", line) == (line, false)
  {
    var line := "x = 1  " + "# keep this";
    assert line[7..8] == "#";
    FirstAtByChar(line, "#", 7, 0);
    LineRuleOpening("py", line, 7);
    assert line[7..] == "# keep this";
    AbsentByChar(line[7..], Marker, 0);
    CutToEndCase("py", line, 7);
  }

  /** A marked `#` comment is cut and the code before it right-trimmed. */
  lemma HashCommentCut()
    ensures CleanLine("py", "x = 1  # " + Marker + " remove") == ("x = 1", true)
  {
    var line := "x = 1  # " + Marker + " remove";
    assert line[7..8] == "#";
    FirstAtByChar(line, "#", 7, 0);
    LineRuleOpening("py", line, 7);
    assert line[7..][2..4] == line[9..11] == Marker;
    assert OccursAt(line[7..], Marker, 2);
    CutToEndCase("py", line, 7);
    assert line[..7] == "x = 1  ";
    TrimEndUnique("x = 1  ", "x = 1");
  }

  /** A marked HTML comment followed by more markup is spliced out. */
  lemma MarkupSpliced()
    ensures CleanLine("html", "<div>  <!-- " + Marker + " drop --> </div>") == ("<div>   </div>", true)
  {
    var a, b := "<div>  <!-- ", " drop --> </div>";
    assert a[7..11] == "<!--" && a[1..8] == "div>  <";
    assert b[6..9] == "-->" && a[7..] == "<!-- " && b[..8] == " drop --";
    assert a[..7] == "<div>  " && b[9..] == " </div>";
    assert !IsWs(b[9..][1]);
    assert a[..7] + b[9..] == "<div>   </div>";
    MarkedHtmlComment(a + Marker + b, a, b, 7, 6);
  }

  /** A marked HTML comment followed only by whitespace empties the line. */
  lemma MarkupWholeLine()
    ensures CleanLine("html", " <!-- " + Marker + " only this --> ") == ("", true)
  {
    var a, b := " <!-- ", " only this --> ";
    assert a[1..5] == "<!--" && a[1..2] == "<";
    assert b[11..14] == "-->" && a[1..] == "<!-- " && b[..13] == " only this --";
    MarkedHtmlComment(a + Marker + b, a, b, 1, 11);
    assert b[14..] == " ";
    assert a[..1] == " ";
    TrimEndUnique(" ", "");
  }

  /** In `tsx` a slash pair before a block opener makes the rest of the line one comment. */
  lemma DualSlashFirst()
    ensures CleanLine("tsx", "x // {/* " + Marker + " */} tail") == ("x", true)
  {
    var line := "x // {/* " + Marker + " */} tail";
    assert line[2..4] == "//";
    FirstAtByChar(line, "//", 2, 0);
    assert line[5..8] == "{/*";
    FirstAtByChar(line, "{/*", 5, 0);
    DualTieBreak("tsx", line, 2, 5);
    assert line[2..][7..9] == line[9..11] == Marker;
    assert OccursAt(line[2..], Marker, 7);
    CutToEndCase("tsx", line, 2);
    assert line[..2] == "x ";
    TrimEndUnique("x ", "x");
  }

  /** An unterminated CSS block holding the marker truncates the line. */
  lemma UnterminatedBlock()
    ensures CleanLine("css", "a { color: red; } /* " + Marker + " oops") == ("a { color: red; }", true)
  {
    var line := "a { color: red; } /* " + Marker + " oops";
    UnterminatedPieces(line);
    BlockRuleOpening("css", line, 18);
    CutToEndCase("css", line, 18);
    TrimEndUnique("a { color: red; } ", "a { color: red; }");
  }

  /** The pieces of the unterminated line: where its opener is, that no
      closer follows, and that the marker does. */
  lemma UnterminatedPieces(line: string)
    requires line == "a { color: red; } /* " + Marker + " oops"
    ensures FirstAt(line, "/*", 18)
    ensures !Contains(line[18..], "*/") && Contains(line[18..], Marker)
    ensures line[..18] == "a { color: red; } "
  {
    var a, b := "a { color: red; } /* ", " oops";
    assert line[18..20] == "/*";
    FirstAtByChar(line, "/*", 18, 1);
    var w := line[18..];
    Straddle(a, Marker, b, 19, |line|);
    assert w[1..] == line[19..|line|];
    AbsentByChar(w, "*/", 1);
    assert w[3..5] == line[21..23] == Marker;
    assert OccursAt(w, Marker, 3);
    assert line[..18] == "a { color: red; } ";
  }

  // The closer is searched from the opener's own index, so in `/*/` the
  // closer overlaps the opener and the unmarked span ends there.
  lemma CssOverlappingCloser()
    ensures CleanLine("css", "a /*/ " + Marker) == ("a /*/ " + Marker, false)
  {
    var line := "a /*/ " + Marker;
    assert line[2..4] == "/*" && line[4] == '/' && line[1..3] == " /";
    FirstAtByChar(line, "/*", 2, 1);
    OverlappingCloserKeepsLine(line, 2);
  }

  /** A `//` nowhere inside either piece, nor across the seam, is nowhere in the whole. */
  lemma NoSlashPairJoin(x: string, y: string)
    requires !Contains(x, "//") && !Contains(y, "//")
    requires x == [] || y == [] || x[|x| - 1] != '/' || y[0] != '/'
    ensures !Contains(x + y, "//")
  {
    var h := x + y;
    forall j | 0 <= j <= |h|
      ensures !OccursAt(h, "//", j)
    {
      if j + 2 <= |h| {
        if j + 2 <= |x| {
          assert h[j..j + 2] == x[j..j + 2];
          assert !OccursAt(x, "//", j);
        } else if j >= |x| {
          assert h[j..j + 2] == y[j - |x|..j - |x| + 2];
          assert !OccursAt(y, "//", j - |x|);
        } else {
          assert h[j..j + 2] == [x[|x| - 1], y[0]];
        }
      }
    }
  }

  // The pieces of the `tsx` block line: no `//` anywhere, the `{/*` at 5,
  // its `*/}` 7 further on, the marker inside, and markup after it.
  lemma DualBlockPieces(line: string)
    requires line == "<div>{/* " + Marker + " */}</div>"
    ensures !Contains(line, "//")
    ensures FirstAt(line, "{/*", 5)
    ensures 15 <= |line| && FirstAt(line[5..], "*/}", 7)
    ensures Contains(line[5..15], Marker) && !AllWs(line[15..])
    ensures line[..5] + line[15..] == "<div></div>"
  {
    DualLineNoSlashPair(line);
    assert line[5..8] == "{/*" && line[0..5] == "<div>";
    FirstAtByChar(line, "{/*", 5, 0);
    DualBlockCloser(line);
    assert line[5..15][4..6] == line[9..11] == Marker;
    assert OccursAt(line[5..15], Marker, 4);
    assert line[15..][0] == '<';
    assert line[..5] == "<div>" && line[15..] == "</div>";
  }

  // The first `*/}` after the `{/*` of the `tsx` block line.
  lemma DualBlockCloser(line: string)
    requires line == "<div>{/* " + Marker + " */}</div>"
    ensures 15 <= |line| && FirstAt(line[5..], "*/}", 7)
  {
    var w := line[5..];
    assert line[12..15] == "*/}" && line[7..14] == "* " + Marker + " */";
    assert w[7..10] == line[12..15] && w[2..9] == line[7..14];
    FirstAtByChar(w, "*/}", 7, 2);
  }

  /** The `tsx` block line holds no `//`: built piece by piece, no piece
      holds one and no seam joins two slashes. */
  lemma DualLineNoSlashPair(line: string)
    requires line == "<div>{/* " + Marker + " */}</div>"
    ensures !Contains(line, "//")
  {
    var p1, p2, p3, p4 := "<div>{", "* " + Marker + " *", "}<", "div>";
    AbsentByChar(p1, "//", 0);
    AbsentByChar(p2, "//", 0);
    AbsentByChar(p3, "//", 0);
    AbsentByChar(p4, "//", 0);
    var q1 := p1 + "/";
    NoSlashPairJoin(p1, "/");
    var q2 := q1 + p2;
    NoSlashPairJoin(q1, p2);
    var q3 := q2 + "/";
    NoSlashPairJoin(q2, "/");
    var q4 := q3 + p3;
    NoSlashPairJoin(q3, p3);
    var q5 := q4 + "/";
    NoSlashPairJoin(q4, "/");
    NoSlashPairJoin(q5, p4);
    assert line == q5 + p4;
  }

  // In `tsx` a marked `{/* */}` block, with no `//` on the line, is spliced out.
  lemma DualBlockSpliced()
    ensures CleanLine("tsx", "<div>{/* " + Marker + " */}</div>") == ("<div></div>", true)
  {
    var line := "<div>{/* " + Marker + " */}</div>";
    DualBlockPieces(line);
    var o := Locate(RuleFor("tsx"), line);
    assert OccursAt(line, "{/*", 5);
    FirstAtUnique(line, "{/*", o.start, 5);
    ClosedBlockSpliced(line, 5, "*/}", 7);
  }

  /** The first pass over a line with two marked HTML comments removes only
      the first of them. */
  lemma FirstPassKeepsSecondComment()
    ensures CleanLine("html", "<div> <!-- " + Marker + " --> <!-- " + Marker + " --> </div>")
         == ("<div>  <!-- " + Marker + " --> </div>", true)
  {
    var a, b := "<div> <!-- ", " --> <!-- " + Marker + " --> </div>";
    TwoCommentPieces(a, b);
    MarkedHtmlComment(a + Marker + b, a, b, 6, 1);
  }

  /** The pieces of the two-comment line, as the splice lemma needs them. */
  lemma TwoCommentPieces(a: string, b: string)
    requires a == "<div> <!-- " && b == " --> <!-- " + Marker + " --> </div>"
    ensures a + Marker + b == "<div> <!-- " + Marker + " --> <!-- " + Marker + " --> </div>"
    ensures a[6..10] == "<!--" && '!' !in a[1..7] && '>' !in a[6..]
    ensures b[1..4] == "-->" && '>' !in b[..3]
    ensures !AllWs(b[4..])
    ensures a[..6] + b[4..] == "<div>  <!-- " + Marker + " --> </div>"
  {
    assert a[1..7] == "div> <" && a[6..] == "<!-- " && b[..3] == " --";
    assert b[4..] == " <!-- " + Marker + " --> </div>";
    assert !IsWs(b[4..][1]);
  }

  /** The second pass removes the comment the first pass left behind. */
  lemma SecondPassRemovesIt()
    ensures CleanLine("html", "<div>  <!-- " + Marker + " --> </div>") == ("<div>   </div>", true)
  {
    var a, c := "<div>  <!-- ", " --> </div>";
    assert a[7..11] == "<!--" && a[1..8] == "div>  <";
    assert c[1..4] == "-->" && a[7..] == "<!-- " && c[..3] == " --";
    assert a[..7] == "<div>  " && c[4..] == " </div>";
    assert !IsWs(c[4..][1]);
    assert a[..7] + c[4..] == "<div>   </div>";
    MarkedHtmlComment(a + Marker + c, a, c, 7, 1);
  }

  /** An unmarked first comment shields a marked one after it: the first
      opener's span decides the line, so the line is kept. */
  lemma UnmarkedFirstHidesLater()
    ensures var line := "<!-- a --> " + "<!-- " + Marker + " -->";
      CleanLine("html", line) == (line, false)
  {
    var line := "<!-- a --> " + "<!-- " + Marker + " -->";
    UnmarkedFirstPieces(line);
    BlockRuleOpening("html", line, 0);
    ClosedBlockKept(line, 0, "-->", 7);
  }

  /** The pieces of the shielded line: its first opener at 0, the first
      closer 7 on, and no marker in the span between. */
  lemma UnmarkedFirstPieces(line: string)
    requires line == "<!-- a --> " + "<!-- " + Marker + " -->"
    ensures FirstAt(line, "<!--", 0) && 10 <= |line|
    ensures FirstAt(line[0..], "-->", 7)
    ensures !Contains(line[0..0 + 7 + 3], Marker)
  {
    assert line[0..4] == "<!--";
    assert OccursAt(line, "<!--", 0);
    assert line[0..] == line;
    assert line[7..10] == "-->" && line[2..9] == "-- a --";
    FirstAtByChar(line, "-->", 7, 2);
    assert line[0..10] == "<!-- a -->";
    AbsentByChar(line[0..10], Marker, 0);
  }

  /** Only the first opener's comment is examined per pass; here it is marked
      each time, so a second pass changes the line again and cleaning is not
      idempotent. */
  lemma NotIdempotent()
    ensures var once := CleanLine("html", "<div> <!-- " + Marker + " --> <!-- " + Marker + " --> </div>");
      && once == ("<div>  <!-- " + Marker + " --> </div>", true)
      && CleanLine("html", once.0) == ("<div>   </div>", true)
  {
    FirstPassKeepsSecondComment();
    SecondPassRemovesIt();
  }
}

=== FILE: selector.dfy ===
/** The file selection of `list_non_ignored_files` (src/main.rs).

    The directory walk is given as the unfiltered traversal, in order: it
    still holds the items that `filter_entry` hides, which `Pruned` marks and
    the selection skips. The repository's ignore query, glob compilation and
    glob matching are parameters: their rules belong to libraries outside
    this model.
 */
module Selector {
  import opened Text

  /** One path component; `utf8` is false when it is not valid Unicode. */
  datatype Name = Name(text: string, utf8: bool)

  /** A path relative to the repository root, as its components. */
  type RelPath = seq<Name>

  /** A walked entry; `isDir` is what the file system says of its path. */
  datatype Entry = Entry(path: RelPath, isDir: bool)

  /** What the walker yields: an entry, or a failure at some path. */
  datatype WalkItem = Visit(entry: Entry) | WalkFailure(at: RelPath)

  /** The ignore query's answer, or the version-control library's error. */
  datatype GitAnswer = Answer(ignored: bool) | GitFailure(message: string)

  /** The fatal errors of file selection, named as the source names them. */
  datatype AppError =
    | GitDiscovery(message: string)
    | WalkDir(at: RelPath)
    | InvalidGlob(pattern: string)

  datatype Result<+T> = Ok(value: T) | Err(error: AppError)

  /** `is_git_dir`: the entry's own name is `.git`; a name that is not
      valid Unicode never is. */
  predicate IsGitDir(n: Name) {
    n.utf8 && n.text == ".git"
  }

  /** Some component of the path is a `.git` directory. */
  predicate UnderGitDir(p: RelPath) {
    exists i | 0 <= i < |p| :: IsGitDir(p[i])
  }

  /** `filter_entry(|e| !is_git_dir(e))`: the walker yields no entry inside
      a `.git` directory, nor the directory itself, and no failure below it.
      A failure reported at the `.git` path itself, such as one raised while
      reading the entry's file type before any entry exists to filter, still
      comes through. */
  predicate Pruned(item: WalkItem) {
    match item
    case Visit(e) => UnderGitDir(e.path)
    case WalkFailure(at) => |at| > 0 && UnderGitDir(at[..|at| - 1])
  }

  /** Every component is valid Unicode, so `to_str` succeeds. */
  predicate AllUtf8(p: RelPath) {
    forall i | 0 <= i < |p| :: p[i].utf8
  }

  function Texts(p: RelPath): (ts: seq<string>)
    ensures |ts| == |p| && forall i | 0 <= i < |p| :: ts[i] == p[i].text
  {
    seq(|p|, i requires 0 <= i < |p| => p[i].text)
  }

  /** The string patterns are matched against: the path joined with the
      platform separator `sep`, then backslashes turned into slashes. */
  function MatchKey(p: RelPath, sep: char): (key: string)
    ensures '\\' !in key
  {
    NormalizeNoBackslash(Join(Texts(p), sep));
    Normalize(Join(Texts(p), sep))
  }

  /** Some pattern matches the key. */
  predicate AnyMatch<P>(pats: seq<P>, key: string, matches: (P, string) -> bool) {
    exists i | 0 <= i < |pats| :: matches(pats[i], key)
  }

  /** `Pattern::new` over the whole list, stopping at the first bad pattern. */
  function CompileAll<P>(srcs: seq<string>, compile: string -> Option<P>): (r: Result<seq<P>>)
    ensures r.Ok? <==> forall i | 0 <= i < |srcs| :: compile(srcs[i]).Some?
    ensures r.Ok? ==> |r.value| == |srcs|
    ensures r.Ok? ==> forall i | 0 <= i < |srcs| :: Some(r.value[i]) == compile(srcs[i])
    ensures r.Err? ==> exists i | 0 <= i < |srcs| ::
      && compile(srcs[i]).None?
      && r.error == InvalidGlob(srcs[i])
      && forall j | 0 <= j < i :: compile(srcs[j]).Some?
  {
    if |srcs| == 0 then Ok([])
    else match compile(srcs[0])
      case None => Err(InvalidGlob(srcs[0]))
      case Some(p) =>
        match CompileAll(srcs[1..], compile)
        case Err(e) =>
          assert forall i | 1 <= i <= |srcs[1..]| :: srcs[1..][i - 1] == srcs[i];
          Err(e)
        case Ok(ps) => Ok([p] + ps)
  }

  /** An entry that gets past the directory, root and ignore checks and
      whose path converts to a string. */
  predicate Survives(e: Entry, ignored: RelPath -> GitAnswer) {
    !e.isDir && e.path != [] && ignored(e.path) == Answer(false) && AllUtf8(e.path)
  }

  /** A surviving entry that no exclude pattern matches and that the
      include patterns admit (an empty include list admits everything). */
  predicate Wanted<P>(e: Entry, incs: seq<P>, excs: seq<P>, matches: (P, string) -> bool,
                      ignored: RelPath -> GitAnswer, sep: char) {
    && Survives(e, ignored)
    && !AnyMatch(excs, MatchKey(e.path, sep), matches)
    && (|incs| == 0 || AnyMatch(incs, MatchKey(e.path, sep), matches))
  }

  /** A yielded item that aborts the selection: a walk failure, or an ignore
      query that fails for a file. */
  predicate Fails(item: WalkItem, ignored: RelPath -> GitAnswer) {
    && !Pruned(item)
    && (item.WalkFailure?
        || (!item.entry.isDir && item.entry.path != [] && ignored(item.entry.path).GitFailure?))
  }

  function FailureOf(item: WalkItem, ignored: RelPath -> GitAnswer): AppError
    requires Fails(item, ignored)
  {
    if item.WalkFailure? then WalkDir(item.at) else GitDiscovery(ignored(item.entry.path).message)
  }

  /** Reference selection: the first failing item aborts; otherwise the
      wanted entries, in walk order. */
  function SelectSpec<P>(walk: seq<WalkItem>, incs: seq<P>, excs: seq<P>, matches: (P, string) -> bool,
                         ignored: RelPath -> GitAnswer, sep: char): Result<seq<Entry>>
  {
    if |walk| == 0 then Ok([])
    else if Fails(walk[0], ignored) then Err(FailureOf(walk[0], ignored))
    else
      var rest := SelectSpec(walk[1..], incs, excs, matches, ignored, sep);
      if rest.Ok? && !Pruned(walk[0]) && Wanted(walk[0].entry, incs, excs, matches, ignored, sep)
      then Ok([walk[0].entry] + rest.value)
      else rest
  }

  /** Reference for the whole operation: includes compiled, then excludes,
      then the walk. */
  function ListSpec<P>(includes: seq<string>, excludes: seq<string>, walk: seq<WalkItem>,
                       compile: string -> Option<P>, matches: (P, string) -> bool,
                       ignored: RelPath -> GitAnswer, sep: char): Result<seq<Entry>>
  {
    match CompileAll(includes, compile)
    case Err(e) => Err(e)
    case Ok(incs) =>
      match CompileAll(excludes, compile)
      case Err(e) => Err(e)
      case Ok(excs) => SelectSpec(walk, incs, excs, matches, ignored, sep)
  }

  /** The pattern scan of the source: stop at the first pattern that matches. */
  method MatchesAny<P>(pats: seq<P>, key: string, matches: (P, string) -> bool) returns (found: bool)
    ensures found <==> AnyMatch(pats, key, matches)
  {
    found := false;
    for i := 0 to |pats|
      invariant !found ==> forall j | 0 <= j < i :: !matches(pats[j], key)
      invariant found ==> AnyMatch(pats, key, matches)
    {
      if matches(pats[i], key) {
        found := true;
        break;
      }
    }
  }

  /** `Ok(acc ++ xs)` for a successful tail, the error otherwise. */
  function Prepend(acc: seq<Entry>, r: Result<seq<Entry>>): Result<seq<Entry>> {
    match r
    case Ok(xs) => Ok(acc + xs)
    case Err(e) => Err(e)
  }

  lemma PrependAppend(acc: seq<Entry>, e: Entry, r: Result<seq<Entry>>)
    ensures Prepend(acc + [e], r) == Prepend(acc, Prepend([e], r))
  {
    if r.Ok? {
      assert acc + [e] + r.value == acc + ([e] + r.value);
    }
  }

  /** `list_non_ignored_files`: compile the patterns up front, then walk and
      keep the files that pass every check, in walk order. */
  method ListNonIgnoredFiles<P>(includes: seq<string>, excludes: seq<string>, walk: seq<WalkItem>,
                                compile: string -> Option<P>, matches: (P, string) -> bool,
                                ignored: RelPath -> GitAnswer, sep: char)
    returns (r: Result<seq<Entry>>)
    ensures r == ListSpec(includes, excludes, walk, compile, matches, ignored, sep)
  {
    var incs := CompileAll(includes, compile);
    if incs.Err? {
      return Err(incs.error);
    }
    var excs := CompileAll(excludes, compile);
    if excs.Err? {
      return Err(excs.error);
    }
    var selected: seq<Entry> := [];
    assert walk[0..] == walk;
    assert forall xs: seq<Entry> :: [] + xs == xs;
    for k := 0 to |walk|
      invariant SelectSpec(walk, incs.value, excs.value, matches, ignored, sep)
             == Prepend(selected, SelectSpec(walk[k..], incs.value, excs.value, matches, ignored, sep))
    {
      assert walk[k..][0] == walk[k] && walk[k..][1..] == walk[k + 1..];
      var item := walk[k];
      if Pruned(item) {
        // hidden by `filter_entry`: the source never sees it
      } else if item.WalkFailure? {
        return Err(WalkDir(item.at));
      } else if !item.entry.isDir && item.entry.path != [] {
        var e := item.entry;
        match ignored(e.path) {
          case GitFailure(msg) =>
            return Err(GitDiscovery(msg));
          case Answer(isIgnored) =>
            if !isIgnored && AllUtf8(e.path) {
              var key := MatchKey(e.path, sep);
              var excluded := MatchesAny(excs.value, key, matches);
              if !excluded {
                if |incs.value| == 0 {
                  PrependAppend(selected, e, SelectSpec(walk[k + 1..], incs.value, excs.value, matches, ignored, sep));
                  selected := selected + [e];
                } else {
                  var included := MatchesAny(incs.value, key, matches);
                  if included {
                    PrependAppend(selected, e, SelectSpec(walk[k + 1..], incs.value, excs.value, matches, ignored, sep));
                    selected := selected + [e];
                  }
                }
              }
            }
        }
      }
    }
    assert walk[|walk|..] == [];
    assert selected + [] == selected;
    return Ok(selected);
  }
}

=== FILE: selector_props.dfy ===
/** Properties of file selection: when it fails, what it keeps, what it
    never keeps, and that it keeps walk order. */
module SelectorFacts {
  import opened Text
  import opened Selector

  /** `out` lists the entries of some of the walk's items, in walk order. */
  predicate InWalkOrder(out: seq<Entry>, walk: seq<WalkItem>)
    decreases |walk|
  {
    if |out| == 0 then true
    else if |walk| == 0 then false
    else (walk[0] == Visit(out[0]) && InWalkOrder(out[1..], walk[1..])) || InWalkOrder(out, walk[1..])
  }

  /** Selection fails exactly when some yielded item fails, and then with
      the error of the first such item. */
  lemma {:induction false} SelectOutcome<P>(walk: seq<WalkItem>, incs: seq<P>, excs: seq<P>,
                                            matches: (P, string) -> bool, ignored: RelPath -> GitAnswer, sep: char)
    ensures SelectSpec(walk, incs, excs, matches, ignored, sep).Ok?
        <==> forall k | 0 <= k < |walk| :: !Fails(walk[k], ignored)
    ensures var r := SelectSpec(walk, incs, excs, matches, ignored, sep);
      r.Err? ==> exists k | 0 <= k < |walk| ::
        && Fails(walk[k], ignored)
        && (forall j | 0 <= j < k :: !Fails(walk[j], ignored))
        && r.error == FailureOf(walk[k], ignored)
  {
    if |walk| > 0 && !Fails(walk[0], ignored) {
      var tail := walk[1..];
      SelectOutcome(tail, incs, excs, matches, ignored, sep);
      assert forall k | 1 <= k < |walk| :: walk[k] == tail[k - 1];
      var r := SelectSpec(tail, incs, excs, matches, ignored, sep);
      if r.Err? {
        var k :| 0 <= k < |tail| && Fails(tail[k], ignored)
          && (forall j | 0 <= j < k :: !Fails(tail[j], ignored)) && r.error == FailureOf(tail[k], ignored);
        assert Fails(walk[k + 1], ignored);
      }
    }
  }

  /** Every selected entry was yielded by the walk, not pruned, and wanted:
      a regular file, not the root, not ignored, matched by no exclude
      pattern and admitted by the include patterns. */
  lemma {:induction false} SelectSound<P>(walk: seq<WalkItem>, incs: seq<P>, excs: seq<P>,
                                          matches: (P, string) -> bool, ignored: RelPath -> GitAnswer, sep: char)
    ensures var r := SelectSpec(walk, incs, excs, matches, ignored, sep);
      r.Ok? ==> forall i | 0 <= i < |r.value| :: exists k | 0 <= k < |walk| ::
        walk[k] == Visit(r.value[i]) && !Pruned(walk[k]) && Wanted(r.value[i], incs, excs, matches, ignored, sep)
  {
    if |walk| > 0 && !Fails(walk[0], ignored) {
      var tail := walk[1..];
      SelectSound(tail, incs, excs, matches, ignored, sep);
      var r := SelectSpec(walk, incs, excs, matches, ignored, sep);
      var rt := SelectSpec(tail, incs, excs, matches, ignored, sep);
      if r.Ok? {
        forall i | 0 <= i < |r.value|
          ensures exists k | 0 <= k < |walk| ::
            walk[k] == Visit(r.value[i]) && !Pruned(walk[k]) && Wanted(r.value[i], incs, excs, matches, ignored, sep)
        {
          if r.value != rt.value {
            if i > 0 {
              assert r.value[i] == rt.value[i - 1];
              var k :| 0 <= k < |tail| && tail[k] == Visit(rt.value[i - 1]) && !Pruned(tail[k])
                && Wanted(rt.value[i - 1], incs, excs, matches, ignored, sep);
              assert walk[k + 1] == tail[k];
            } else {
              assert walk[0] == Visit(r.value[0]);
            }
          } else {
            var k :| 0 <= k < |tail| && tail[k] == Visit(rt.value[i]) && !Pruned(tail[k])
              && Wanted(rt.value[i], incs, excs, matches, ignored, sep);
            assert walk[k + 1] == tail[k];
          }
        }
      }
    }
  }

  /** Every yielded, unpruned, wanted entry is selected. */
  lemma {:induction false} SelectComplete<P>(walk: seq<WalkItem>, incs: seq<P>, excs: seq<P>,
                                             matches: (P, string) -> bool, ignored: RelPath -> GitAnswer, sep: char)
    ensures var r := SelectSpec(walk, incs, excs, matches, ignored, sep);
      r.Ok? ==> forall k | 0 <= k < |walk| && walk[k].Visit? && !Pruned(walk[k])
                  && Wanted(walk[k].entry, incs, excs, matches, ignored, sep) :: walk[k].entry in r.value
  {
    if |walk| > 0 && !Fails(walk[0], ignored) {
      var tail := walk[1..];
      SelectComplete(tail, incs, excs, matches, ignored, sep);
      var r := SelectSpec(walk, incs, excs, matches, ignored, sep);
      var rt := SelectSpec(tail, incs, excs, matches, ignored, sep);
      if r.Ok? {
        forall k | 0 <= k < |walk| && walk[k].Visit? && !Pruned(walk[k])
          && Wanted(walk[k].entry, incs, excs, matches, ignored, sep)
          ensures walk[k].entry in r.value
        {
          if k > 0 {
            assert tail[k - 1] == walk[k];
            assert walk[k].entry in rt.value;
          }
        }
      }
    }
  }

  /** The selection lists entries in the order the walk yields them. */
  lemma {:induction false} SelectInWalkOrder<P>(walk: seq<WalkItem>, incs: seq<P>, excs: seq<P>,
                                                matches: (P, string) -> bool, ignored: RelPath -> GitAnswer, sep: char)
    ensures var r := SelectSpec(walk, incs, excs, matches, ignored, sep);
      r.Ok? ==> InWalkOrder(r.value, walk)
  {
    if |walk| > 0 && !Fails(walk[0], ignored) {
      var tail := walk[1..];
      SelectInWalkOrder(tail, incs, excs, matches, ignored, sep);
      var r := SelectSpec(walk, incs, excs, matches, ignored, sep);
      var rt := SelectSpec(tail, incs, excs, matches, ignored, sep);
      if r.Ok? {
        if r.value == rt.value {
          if |r.value| > 0 {
            assert InWalkOrder(r.value, walk);
          }
        } else {
          assert r.value[1..] == rt.value;
        }
      }
    }
  }

  /** Nothing selected is a directory, the root, ignored, inside `.git`, or
      matched by an exclude pattern; exclusion wins over inclusion. */
  lemma NothingUnwanted<P>(walk: seq<WalkItem>, incs: seq<P>, excs: seq<P>,
                           matches: (P, string) -> bool, ignored: RelPath -> GitAnswer, sep: char, e: Entry)
    requires SelectSpec(walk, incs, excs, matches, ignored, sep).Ok?
    requires e in SelectSpec(walk, incs, excs, matches, ignored, sep).value
    ensures !e.isDir && e.path != [] && ignored(e.path) == Answer(false)
    ensures !UnderGitDir(e.path)
    ensures forall i | 0 <= i < |excs| :: !matches(excs[i], MatchKey(e.path, sep))
  {
    SelectSound(walk, incs, excs, matches, ignored, sep);
    var out := SelectSpec(walk, incs, excs, matches, ignored, sep).value;
    var i :| 0 <= i < |out| && out[i] == e;
    var k :| 0 <= k < |walk| && walk[k] == Visit(out[i]) && !Pruned(walk[k])
      && Wanted(out[i], incs, excs, matches, ignored, sep);
  }

  /** With no include patterns, a successful selection holds exactly the
      yielded, unpruned, surviving entries that no exclude pattern matches. */
  lemma EmptyIncludesSelectAll<P>(walk: seq<WalkItem>, excs: seq<P>,
                                  matches: (P, string) -> bool, ignored: RelPath -> GitAnswer, sep: char, e: Entry)
    requires SelectSpec(walk, [], excs, matches, ignored, sep).Ok?
    ensures e in SelectSpec(walk, [], excs, matches, ignored, sep).value
        <==> exists k | 0 <= k < |walk| ::
               && walk[k] == Visit(e) && !Pruned(walk[k]) && Survives(e, ignored)
               && !AnyMatch(excs, MatchKey(e.path, sep), matches)
  {
    SelectSound(walk, [], excs, matches, ignored, sep);
    SelectComplete(walk, [], excs, matches, ignored, sep);
    var out := SelectSpec(walk, [], excs, matches, ignored, sep).value;
    if e in out {
      var i :| 0 <= i < |out| && out[i] == e;
      var k :| 0 <= k < |walk| && walk[k] == Visit(out[i]) && !Pruned(walk[k])
        && Wanted(out[i], [], excs, matches, ignored, sep);
    }
  }

  /** With include patterns, a surviving, non-excluded entry yielded by the
      walk is selected exactly when some include pattern matches it. */
  lemma IncludesDecide<P>(walk: seq<WalkItem>, incs: seq<P>, excs: seq<P>,
                          matches: (P, string) -> bool, ignored: RelPath -> GitAnswer, sep: char, k: nat)
    requires SelectSpec(walk, incs, excs, matches, ignored, sep).Ok?
    requires k < |walk| && walk[k].Visit? && !Pruned(walk[k])
    requires Survives(walk[k].entry, ignored) && !AnyMatch(excs, MatchKey(walk[k].entry.path, sep), matches)
    requires |incs| > 0
    ensures walk[k].entry in SelectSpec(walk, incs, excs, matches, ignored, sep).value
        <==> exists i | 0 <= i < |incs| :: matches(incs[i], MatchKey(walk[k].entry.path, sep))
  {
    SelectSound(walk, incs, excs, matches, ignored, sep);
    SelectComplete(walk, incs, excs, matches, ignored, sep);
    var e := walk[k].entry;
    var out := SelectSpec(walk, incs, excs, matches, ignored, sep).value;
    if e in out {
      var i :| 0 <= i < |out| && out[i] == e;
      var j :| 0 <= j < |walk| && walk[j] == Visit(out[i]) && !Pruned(walk[j])
        && Wanted(out[i], incs, excs, matches, ignored, sep);
    }
  }

  /** Patterns are compiled before the walk: a bad pattern fails the whole
      operation with InvalidGlob, whatever the walk would have yielded. */
  lemma PatternsBeforeWalk<P>(includes: seq<string>, excludes: seq<string>, walk1: seq<WalkItem>, walk2: seq<WalkItem>,
                              compile: string -> Option<P>, matches: (P, string) -> bool,
                              ignored: RelPath -> GitAnswer, sep: char)
    requires exists i | 0 <= i < |includes + excludes| :: compile((includes + excludes)[i]).None?
    ensures ListSpec(includes, excludes, walk1, compile, matches, ignored, sep).Err?
    ensures ListSpec(includes, excludes, walk1, compile, matches, ignored, sep).error.InvalidGlob?
    ensures ListSpec(includes, excludes, walk1, compile, matches, ignored, sep)
         == ListSpec(includes, excludes, walk2, compile, matches, ignored, sep)
  {
    var i :| 0 <= i < |includes + excludes| && compile((includes + excludes)[i]).None?;
    if i < |includes| {
      assert compile(includes[i]).None?;
    } else {
      assert compile(excludes[i - |includes|]).None?;
    }
  }

  /** Keys are platform independent: on a system whose separator is `\`,
      the key of a path is the key it would have with `/`, as long as no
      component name holds either separator. */
  lemma MatchKeyPlatformIndependent(p: RelPath)
    requires forall i | 0 <= i < |p| :: '\\' !in p[i].text && '/' !in p[i].text
    ensures MatchKey(p, '\\') == MatchKey(p, '/')
  {
    var ts := Texts(p);
    NormalizeJoin(ts);
    var nts := seq(|ts|, k requires 0 <= k < |ts| => Normalize(ts[k]));
    forall k | 0 <= k < |ts|
      ensures nts[k] == ts[k]
    {
      NormalizeIdentity(ts[k]);
    }
    assert nts == ts;
    JoinNoBackslash(ts, '/');
    NormalizeIdentity(Join(ts, '/'));
  }

  /** Joining backslash-free pieces with `/` gives a backslash-free string. */
  lemma {:induction false} JoinNoBackslash(parts: seq<string>, sep: char)
    requires sep != '\\'
    requires forall k | 0 <= k < |parts| :: '\\' !in parts[k]
    ensures '\\' !in Join(parts, sep)
  {
    if |parts| > 1 {
      JoinNoBackslash(parts[1..], sep);
    }
  }
}

=== FILE: text.dfy ===
/** String helpers shared by the line cleaner and the file selector.

    Strings are sequences of Unicode scalar values. The source searches and
    slices UTF-8 byte strings, but every token it looks for is ASCII or a
    whole scalar, so a character index here stands for exactly the byte
    offset the source computes.
 */
module Text {

  datatype Option<+T> = None | Some(value: T)

  /** `needle` occurs in `hay` starting at index `i`. */
  predicate OccursAt(hay: string, needle: string, i: int) {
    0 <= i && i + |needle| <= |hay| && hay[i..i + |needle|] == needle
  }

  /** `needle` occurs somewhere in `hay` (`str::contains`). */
  predicate Contains(hay: string, needle: string) {
    exists i | 0 <= i <= |hay| :: OccursAt(hay, needle, i)
  }

  /** `i` is the first index at which `needle` occurs in `hay`. */
  predicate FirstAt(hay: string, needle: string, i: int) {
    OccursAt(hay, needle, i) && forall j | 0 <= j < i :: !OccursAt(hay, needle, j)
  }

  /** Some occurrence of `needle` starts strictly before index `b`. */
  predicate OccursBefore(hay: string, needle: string, b: int) {
    exists j | 0 <= j < b :: OccursAt(hay, needle, j)
  }

  /** Leftmost occurrence of `needle` at or after `from`. */
  function FindFrom(hay: string, needle: string, from: nat): (r: Option<nat>)
    ensures r.Some? ==> from <= r.value && OccursAt(hay, needle, r.value)
    ensures r.Some? ==> forall j | from <= j < r.value :: !OccursAt(hay, needle, j)
    ensures r.None? ==> forall j | from <= j :: !OccursAt(hay, needle, j)
    decreases |hay| - from
  {
    if |hay| < from + |needle| then None
    else if hay[from..from + |needle|] == needle then Some(from)
    else FindFrom(hay, needle, from + 1)
  }

  /** Searching the suffix from `from` is searching the whole string from
      `from`, with the index counted from the suffix's start. */
  lemma FindInSuffix(hay: string, needle: string, from: nat)
    requires from <= |hay|
    ensures Find(hay[from..], needle).Some? <==> FindFrom(hay, needle, from).Some?
    ensures Find(hay[from..], needle).Some? ==>
      from + Find(hay[from..], needle).value == FindFrom(hay, needle, from).value
  {
    var suf := hay[from..];
    var r := FindFrom(hay, needle, from);
    if r.Some? {
      OccursShift(hay, needle, from, r.value - from);
    }
    var f := Find(suf, needle);
    if f.Some? {
      OccursShift(hay, needle, from, f.value);
    }
  }

  /** An occurrence in the suffix from `from` is an occurrence in the whole
      string, `from` further on, and the other way round. */
  lemma OccursShift(hay: string, needle: string, from: nat, j: nat)
    requires from <= |hay|
    ensures OccursAt(hay[from..], needle, j) <==> OccursAt(hay, needle, from + j)
  {
    if j + |needle| <= |hay| - from {
      assert hay[from..][j..j + |needle|] == hay[from + j..from + j + |needle|];
    }
  }

  /** `str::find`: the first index of `needle` in `hay`, if any. */
  function Find(hay: string, needle: string): (r: Option<nat>)
    ensures r.Some? <==> Contains(hay, needle)
    ensures r.Some? ==> FirstAt(hay, needle, r.value)
  {
    FindFrom(hay, needle, 0)
  }

  /** The first occurrence of a needle is unique. */
  lemma FirstAtUnique(hay: string, needle: string, i: int, j: int)
    requires FirstAt(hay, needle, i) && FirstAt(hay, needle, j)
    ensures i == j
  {
  }

  /** An occurrence at `i` is the first one when the needle's `k`-th
      character appears nowhere an earlier occurrence would put it. */
  lemma FirstAtByChar(hay: string, needle: string, i: int, k: int)
    requires 0 <= k < |needle| && OccursAt(hay, needle, i)
    requires needle[k] !in hay[k..i + k]
    ensures FirstAt(hay, needle, i)
  {
    forall j | 0 <= j < i
      ensures !OccursAt(hay, needle, j)
    {
      assert hay[k..i + k][j] == hay[j + k];
      if j + |needle| <= |hay| {
        assert hay[j..j + |needle|][k] == hay[j + k];
      }
    }
  }

  /** A needle does not occur when its `k`-th character is absent from
      every place an occurrence would put it. */
  lemma AbsentByChar(hay: string, needle: string, k: int)
    requires 0 <= k < |needle| && k <= |hay|
    requires needle[k] !in hay[k..]
    ensures !Contains(hay, needle)
  {
    forall j | 0 <= j <= |hay|
      ensures !OccursAt(hay, needle, j)
    {
      if j + |needle| <= |hay| {
        assert hay[j..j + |needle|][k] == hay[j + k] == hay[k..][j];
      }
    }
  }

  /** An occurrence inside a slice is an occurrence in the whole string. */
  lemma ContainsSlice(s: string, lo: int, hi: int, needle: string)
    requires 0 <= lo <= hi <= |s|
    requires Contains(s[lo..hi], needle)
    ensures Contains(s, needle)
  {
    var i :| 0 <= i <= hi - lo && OccursAt(s[lo..hi], needle, i);
    var w := s[lo..hi];
    assert w[i..i + |needle|] == needle;
    forall k | 0 <= k < |needle|
      ensures s[lo + i + k] == needle[k]
    {
      assert w[i + k] == s[lo + i + k];
    }
    assert s[lo + i..lo + i + |needle|] == needle;
    assert OccursAt(s, needle, lo + i);
  }

  /** Rust's `char::is_whitespace`: the Unicode White_Space property. */
  predicate IsWs(c: char) {
    ('\t' <= c <= '\r') || c == ' ' || c == '\U{85}' || c == '\U{A0}'
    || c == '\U{1680}' || ('\U{2000}' <= c <= '\U{200A}')
    || c == '\U{2028}' || c == '\U{2029}' || c == '\U{202F}'
    || c == '\U{205F}' || c == '\U{3000}'
  }

  /** Every character is whitespace; for a suffix this is `suffix.trim().is_empty()`. */
  predicate AllWs(s: string) {
    forall i | 0 <= i < |s| :: IsWs(s[i])
  }

  /** `str::trim_end`: the longest prefix not ending in whitespace. */
  function TrimEnd(s: string): (r: string)
    ensures r <= s
    ensures AllWs(s[|r|..])
    ensures r == [] || !IsWs(r[|r| - 1])
  {
    if |s| > 0 && IsWs(s[|s| - 1]) then TrimEnd(s[..|s| - 1]) else s
  }

  /** The three properties in TrimEnd's contract determine its result. */
  lemma TrimEndUnique(s: string, p: string)
    requires p <= s
    requires AllWs(s[|p|..])
    requires p == [] || !IsWs(p[|p| - 1])
    ensures p == TrimEnd(s)
  {
  }

  /** `slice.join(sep)` for a one-character separator. */
  function Join(parts: seq<string>, sep: char): string
  {
    if |parts| == 0 then []
    else if |parts| == 1 then parts[0]
    else parts[0] + [sep] + Join(parts[1..], sep)
  }

  /** `str::split(sep)`: always at least one piece. */
  function Split(s: string, sep: char): (r: seq<string>)
    ensures |r| >= 1
    decreases |s|
  {
    match Find(s, [sep])
    case None => [s]
    case Some(i) => [s[..i]] + Split(s[i + 1..], sep)
  }

  /** A string in which `sep` never occurs splits into itself alone. */
  lemma SplitNoSep(s: string, sep: char)
    requires sep !in s
    ensures Split(s, sep) == [s]
  {
    forall i | 0 <= i <= |s|
      ensures !OccursAt(s, [sep], i)
    {
      if i + 1 <= |s| {
        assert s[i..i + 1] == [s[i]];
      }
    }
  }

  /** Joining pieces free of the separator and splitting again gives them back. */
  lemma {:induction false} SplitJoin(parts: seq<string>, sep: char)
    requires |parts| >= 1
    requires forall k | 0 <= k < |parts| :: sep !in parts[k]
    ensures Split(Join(parts, sep), sep) == parts
  {
    if |parts| == 1 {
      SplitNoSep(parts[0], sep);
    } else {
      var head := parts[0];
      var rest := Join(parts[1..], sep);
      var s := head + [sep] + rest;
      assert s == Join(parts, sep);
      assert OccursAt(s, [sep], |head|) by {
        assert s[|head|..|head| + 1] == [sep];
      }
      forall j | 0 <= j < |head|
        ensures !OccursAt(s, [sep], j)
      {
        assert s[j] == head[j];
      }
      assert FirstAt(s, [sep], |head|);
      FirstAtUnique(s, [sep], Find(s, [sep]).value, |head|);
      assert s[..|head|] == head;
      assert s[|head| + 1..] == rest;
      SplitJoin(parts[1..], sep);
      assert Split(s, sep) == [head] + parts[1..];
    }
  }

  /** Backslashes replaced by forward slashes (`s.replace('\\', "/")`). */
  function Normalize(s: string): (r: string)
    ensures |r| == |s|
    ensures forall i | 0 <= i < |s| :: r[i] == (if s[i] == '\\' then '/' else s[i])
  {
    if |s| == 0 then []
    else [if s[0] == '\\' then '/' else s[0]] + Normalize(s[1..])
  }

  /** A normalised path holds no backslash. */
  lemma NormalizeNoBackslash(s: string)
    ensures '\\' !in Normalize(s)
  {
  }

  /** Normalising a backslash-free string changes nothing. */
  lemma NormalizeIdentity(s: string)
    requires '\\' !in s
    ensures Normalize(s) == s
  {
  }

  /** Normalising a join over `\` is the join over `/` of normalised pieces. */
  lemma {:induction false} NormalizeJoin(parts: seq<string>)
    ensures Normalize(Join(parts, '\\')) == Join(seq(|parts|, k requires 0 <= k < |parts| => Normalize(parts[k])), '/')
  {
    var np := seq(|parts|, k requires 0 <= k < |parts| => Normalize(parts[k]));
    if |parts| <= 1 {
    } else {
      var tail := parts[1..];
      var ntail := seq(|tail|, k requires 0 <= k < |tail| => Normalize(tail[k]));
      NormalizeJoin(tail);
      assert np[1..] == ntail;
      NormalizeAppend(parts[0] + ['\\'], Join(tail, '\\'));
      NormalizeAppend(parts[0], ['\\']);
      assert Normalize(['\\']) == ['/'];
    }
  }

  /** Normalisation distributes over concatenation. */
  lemma NormalizeAppend(a: string, b: string)
    ensures Normalize(a + b) == Normalize(a) + Normalize(b)
  {
    var l := Normalize(a + b);
    var r := Normalize(a) + Normalize(b);
    assert |l| == |r|;
    forall i | 0 <= i < |l|
      ensures l[i] == r[i]
    {
      if i < |a| {
        assert (a + b)[i] == a[i];
      } else {
        assert (a + b)[i] == b[i - |a|];
      }
    }
  }
}
